=== FILE: README.md ===
# gtest-strace: the Linux ptrace executor, modelled in Dafny

gtest-strace runs a test body in a new execution context that shares the
caller's memory, files and filesystem state, and traces it with `ptrace` so
its system calls can be observed. This project models the core of that
executor, `include/gtest-strace/impl/linux-ptrace.hpp`:

- **Stack** (`stack.dfy`): the page size with its 4 KiB fallback, and the
  stack size taken from the stack limit (2 MiB default, 16 KiB floor) plus two
  guard pages, in 64-bit unsigned arithmetic. `CreateStack` maps the whole
  allocation inaccessible, makes the middle readable and writable, and picks
  the stack top from the growth direction. The owning handle and its `munmap`
  deleter are modelled too.
- **Clone** (`clone.dfy`): the wrapper the new context runs (SIGSTOP, then the
  work, with an escaping exception caught into a shared slot), and `clone`
  with its fixed flag set.
- **Ptrace** (`ptrace.dfy`): the SIGSTOP handshake followed by PTRACE_SEIZE,
  PTRACE_SETOPTIONS and PTRACE_SYSCALL, and the single tracing step.
- **Strace** (`strace.dfy`): the pipeline. It returns at the first failure,
  re-throws a captured exception, and releases the stack on every path.
- `expected.dfy` holds `Expected<T>` and the structured failures. `linux.dfy`
  holds C integer widths, kernel constants, and the `Call` and answer records.

No system call is executed. Each operation is a pure function that takes the
kernel's answer to each call it makes (return value, `errno`, stored status or
thread id) as an input. It returns its result together with the sequence of
system calls it issued, in order. Ordering, short-circuiting and
"released exactly once" are then statements about that sequence.

The model follows the code as written, including where it departs from its
own comments or from the intended design:

- `mmap` failure is detected by a null test. `mmap` reports failure with
  `MAP_FAILED`, which passes that test (`Stack.MapFailedPassesNullTest`).
- `SinglePtrace` is documented to return a system-call number. It ignores
  every answer and always yields -1, so the step loop runs once and never
  fails.
- The exception slot is therefore read after one step, not after the traced
  context terminated. Whether the context had finished by then is an input
  (`Tracee.doneBeforeRead`). An exception thrown later is lost
  (`Strace.UnfinishedWorkExceptionLost`).
- `unsigned long` sums wrap around modulo 2^64. A stack limit just below
  `RLIM_INFINITY` gives a total smaller than the guard pages
  (`Stack.StackSizeWrapsBelowInfinity`).
- The `clone` flags are held in an `int`. CLONE_IO is its sign bit, so the
  reported flags value is negative.

## Model

| member | source | states |
|---|---|---|
| Stack.GetPageSize | include/gtest-strace/impl/linux-ptrace.hpp:108-116 | a `sysconf` answer of -1 gives 4096; a non-negative answer is the page size; another negative answer is converted modulo 2^64 |
| Stack.UsableStackSize | include/gtest-strace/impl/linux-ptrace.hpp:125-137 | the usable size is 2 MiB when `getrlimit` fails or the limit is `RLIM_INFINITY`, otherwise the larger of the limit and 16 KiB; it is always at least 16 KiB |
| Stack.GetInitialStackSize | include/gtest-strace/impl/linux-ptrace.hpp:119-138 | the total is the usable size plus two pages modulo 2^64; without wrap-around it is exactly that sum and at least 16 KiB plus two pages |
| Stack.CheckStackGrowsDownwards | include/gtest-strace/impl/linux-ptrace.hpp:141-153 | the stack grows downwards on every architecture except HP PA-RISC |
| Stack.Destroy | include/gtest-strace/impl/linux-ptrace.hpp:38-49 | destroying the handle issues at most one call: `munmap` of the pointer with the deleter's size when the pointer is non-null, nothing when it is null |
| Stack.MovedFrom | include/gtest-strace/impl/linux-ptrace.hpp:208 | the handle left after a move is null, so destroying it releases nothing |
| Stack.CreateStack | include/gtest-strace/impl/linux-ptrace.hpp:156-209 | first an inaccessible private anonymous stack mapping of the total size; a null pointer fails with the size and `errno` and issues nothing else; otherwise `mprotect` read/write from one page past the base for the total minus two pages; success iff the pointer is non-null and `mprotect` did not return -1; the handle owns the whole allocation with the full size; on success the usable size is the length passed to `mprotect` and the top is the protected address plus that length when the stack grows downwards, the protected address itself on HP PA-RISC; on `mprotect` failure the error carries the protected address, the size and `errno`, and the whole allocation is unmapped |
| Stack.CreatedStackLayout | include/gtest-strace/impl/linux-ptrace.hpp:182-208 | without wrap-around a created stack has the usable size chosen from the limit (at least 16 KiB); exactly one guard page lies below and one above it; its top is the high end iff the stack grows downwards, i.e. off HP PA-RISC |
| Stack.MapFailedPassesNullTest | include/gtest-strace/impl/linux-ptrace.hpp:161-180 | a `MAP_FAILED` result is never reported as an `mmap` failure; the code calls `mprotect` on the address one page past `MAP_FAILED` (in C that pointer wraps around; pointer overflow is not modelled) and, if that fails, unmaps `MAP_FAILED` with the full size |
| Stack.StackSizeWrapsBelowInfinity | include/gtest-strace/impl/linux-ptrace.hpp:124-136 | with 4 KiB pages and a limit of 2^64-2 the total wraps to 8190 bytes, below 16 KiB plus two pages, and the usable size computed from it wraps to 2^64-2 |
| Clone.WrapperFunctionForClone | include/gtest-strace/impl/linux-ptrace.hpp:81-105 | the new context raises SIGSTOP before calling the work; exit code 0 iff the work returns, and then the slot is unchanged; a thrown exception is stored in the slot and gives exit code 1 |
| Clone.RunWithClone | include/gtest-strace/impl/linux-ptrace.hpp:212-250 | one `clone` call with the stack top as child stack and flags sharing memory, semaphores, files, filesystem and I/O, setting the parent tid and exit signal SIGCHLD, and nothing else; fails iff `clone` returns -1, reporting the flags and `errno`; otherwise yields the stored child id |
| Clone.CloneFlagsValue | include/gtest-strace/impl/linux-ptrace.hpp:219-233 | the flag bits are 0x80140711, the `int` holding them is -2146171119, and they meet the sharing predicate |
| Ptrace.SigstopStatus | include/gtest-strace/impl/linux-ptrace.hpp:270-284 | a wait status passes both the stopped test and the SIGSTOP test iff its low 16 bits are 0x137f |
| Ptrace.SetupPtraceSyscall | include/gtest-strace/impl/linux-ptrace.hpp:253-317 | the calls issued are a non-empty prefix of waitpid, SEIZE, SETOPTIONS(TRACEEXIT and TRACESYSGOOD), SYSCALL; no ptrace request unless the wait saw a stop by SIGSTOP; success iff every check and request succeeds; each failure returns its own error and stops there |
| Ptrace.SinglePtrace | include/gtest-strace/impl/linux-ptrace.hpp:320-330 | whatever the kernel answers, the step issues PTRACE_CONT, one `waitpid` and `kill(pid, SIGCONT)` in that order, then reports -1 and never an error |
| Strace.Strace | include/gtest-strace/impl/linux-ptrace.hpp:333-371 | when the stack mapping, `mprotect`, `clone`, the SIGSTOP handshake or one of the three ptrace requests fails, the run returns an error; once all of them succeed, it either returns success or re-throws, never an error |
| Strace.RunOnStack | include/gtest-strace/impl/linux-ptrace.hpp:345-370 | the steps that use the stack (clone, handshake, step loop, slot read) issue no `munmap`: the stack is released only by its owner `ts` when the run returns |
| Strace.SyscallLoop | include/gtest-strace/impl/linux-ptrace.hpp:356-359 | after the first step the loop's exit condition holds, and the loop result is never an error |
| Strace.StackFailureStopsRun | include/gtest-strace/impl/linux-ptrace.hpp:342-345 | when the stack cannot be created the run returns that failure and issues no clone, waitpid or ptrace call |
| Strace.HandshakeFailureStopsRun | include/gtest-strace/impl/linux-ptrace.hpp:352-354 | when the handshake fails the run returns the handshake's own failure; its calls are the stack calls, the `clone`, the handshake calls and then the one `munmap` of the whole allocation, with no tracing step |
| Strace.CloneFailureStopsRun | include/gtest-strace/impl/linux-ptrace.hpp:347-350 | when `clone` fails the run returns the clone failure and issues no waitpid or ptrace call |
| Strace.PtraceOnlyAfterHandshake | include/gtest-strace/impl/linux-ptrace.hpp:347-354 | a ptrace request is issued only if the stack was created, `clone` succeeded and the handshake wait saw a stop by SIGSTOP |
| Strace.AttachedRunNeverFails | include/gtest-strace/impl/linux-ptrace.hpp:356-370 | once attached, the run either re-throws or returns success, never an error |
| Strace.StraceSucceedsIff | include/gtest-strace/impl/linux-ptrace.hpp:333-371 | the run returns success iff every step succeeds and the slot is empty when read |
| Strace.StraceRethrowsWorkException | include/gtest-strace/impl/linux-ptrace.hpp:364-367 | the run re-throws exception e iff it attached, the work had finished before the read, and the work threw e |
| Strace.NormalWorkSucceeds | include/gtest-strace/impl/linux-ptrace.hpp:364-370 | an attached run whose work returns normally succeeds |
| Strace.UnfinishedWorkExceptionLost | include/gtest-strace/impl/linux-ptrace.hpp:356-370 | an attached run whose work had not finished when the slot was read succeeds even if the work throws |
| Strace.StackReleasedOnce | include/gtest-strace/impl/linux-ptrace.hpp:339-371 | after a non-null `mmap` exactly one `munmap` is issued, last, with the mapped address and the full size; after a null `mmap` none is issued |
| Strace.AttachedRunCalls | include/gtest-strace/impl/linux-ptrace.hpp:333-371 | a run where every step succeeds issues exactly mmap, mprotect, clone, waitpid, SEIZE, SETOPTIONS, SYSCALL, CONT, waitpid, kill(SIGCONT), munmap, in that order |

## Left out

- The effects of `mmap`, `mprotect`, `munmap`, `clone`, `ptrace`, `waitpid`, `kill` and `raise` are not modelled. Each is a kernel call: the model records the call and takes its answer as an input.
- The answers of `munmap` and `raise` are not inputs, because the code ignores them. The answers to the three calls of a tracing step are inputs, but the step ignores them, as the code does.
- Concurrency between tracer and tracee is not modelled. The tracee appears only as the wrapper's outcome and as whether it had finished when the slot was read. So the stack being unmapped while an unfinished tracee still runs on it is not modelled either.
- `std::exception_ptr`, `std::current_exception` and `std::rethrow_exception` are modelled as an opaque token. The work function's argument pointer is opaque too.
- The failure message text is not modelled, and neither are the internals of `tl::expected` and gtest's `AssertionResult`. Failures keep only their operands.
- The `GTEST_HAS_EXCEPTIONS` = 0 variant is not modelled. Only the exceptions-enabled branch is.
- Pointer arithmetic overflow is not modelled: addresses are unbounded naturals.
- `sysconf` and `getrlimit` are assumed to give the same answer on every call. The `gnu::const` declarations of `GetPageSize` and `GetInitialStackSize` assume this, and so does the note on the stack limit at linux-ptrace.hpp:120.
- The syscall-number result promised by `SinglePtrace`'s comment is not modelled, because the code does not compute one.
- `include/gtest-strace/gtest-strace.hpp` (test macro aliases) and `main.cpp` (a smoke test) are not part of this model.
- Stack.CreateStack: assumes that building the `mprotect` failure message does not fault. The code streams the `char *` stack pointer, which reads a NUL-terminated string at that address. That memory is still inaccessible after a failed `mprotect`, so the real program may crash before it returns the error and before the deleter runs.
- Stack.MapFailedPassesNullTest: rests on the same assumption, that building the `mprotect` failure message does not fault. Without it, the `munmap` of `MAP_FAILED` is not reached.
- Strace.StackReleasedOnce: rests on the same assumption for the `mprotect` failure path. That path is the only one on which `CreateStack` itself unmaps the allocation.
- Integer widths, signal numbers and kernel constants are those of x86-64 Linux: 64-bit `unsigned long`, SIGSTOP 19, SIGCHLD 17, MAP_ANONYMOUS 0x20, and so on. `Arch.Hppa` selects only the stack growth direction. HP PA-RISC's 32-bit widths and different signal numbers are not modelled, so `Platform(Hppa, …)` combines the HP PA-RISC growth direction with x86-64 widths and constants.
- Stack.CreatedStackLayout: holds only when the 64-bit size arithmetic does not wrap around; `Stack.StackSizeWrapsBelowInfinity` shows an input where it does.

=== FILE: clone.dfy ===
/** Starting the work in a new execution context: the wrapper that runs inside
    it, and the `clone` call that creates it on the thread stack, sharing the
    caller's memory, files, filesystem state and System V semaphores. */
module Clone {
  import opened Linux
  import opened ExpectedAssertion
  import opened Stack

  /** An exception object, as an opaque token. */
  datatype Exception = Exception(token: nat)

  /** `std::exception_ptr`: null, or a reference to a captured exception. */
  datatype ExceptionPtr = NullExceptionPtr | ExceptionPtrTo(exception: Exception)

  /** How the work function ends: it returns, or it throws an exception. */
  datatype WorkOutcome = Returns | Throws(exception: Exception)

  /** The arguments handed to the new context: the work (as its outcome; its
      argument pointer is opaque) and the slot that receives an exception. */
  datatype WrappedArgs = WrappedArgs(fn: WorkOutcome, excp: ExceptionPtr)

  /** What the new context does, in order. */
  datatype TraceeStep = RaiseSignal(signal: int) | CallWork

  /** The new context's exit code, the slot after it ran, and its steps. */
  datatype WrapperRun = WrapperRun(exitCode: int, excp: ExceptionPtr, steps: seq<TraceeStep>)

  /** The function the new context runs: it stops itself with SIGSTOP so the
      tracer can synchronise, then calls the work; normal return yields 0 and
      leaves the slot as it was, an escaping exception is stored in the slot
      and yields 1. */
  function WrapperFunctionForClone(args: WrappedArgs): (r: WrapperRun)
    ensures |r.steps| == 2 && r.steps[0] == RaiseSignal(SIGSTOP) && r.steps[1] == CallWork
    ensures r.exitCode == 0 <==> args.fn.Returns?
    ensures r.exitCode == 0 || r.exitCode == 1
    ensures args.fn.Returns? ==> r.excp == args.excp
    ensures args.fn.Throws? ==> r.excp == ExceptionPtrTo(args.fn.exception)
  {
    var steps := [RaiseSignal(SIGSTOP), CallWork];
    match args.fn
    case Returns => WrapperRun(0, args.excp, steps)
    case Throws(e) => WrapperRun(1, ExceptionPtrTo(e), steps)
  }

  /** The `clone` flags the tracer passes, as a bit pattern. */
  const CloneFlagBits: bv32 :=
    CLONE_VM | CLONE_SYSVSEM | CLONE_FILES | CLONE_FS | CLONE_IO | SIGCHLD as bv32 | CLONE_PARENT_SETTID

  /** The same flags held in a C `int`; CLONE_IO is the sign bit. */
  const CloneFlags: Int32 := ToInt32(CloneFlagBits as int)

  /** The new context shares memory, System V semaphores, files, filesystem
      state and I/O context with the caller, reports the child id through the
      parent-tid pointer, signals SIGCHLD on exit, and nothing more: in
      particular it is not a thread of the caller's thread group. */
  predicate SharesEverythingButThreadGroup(flags: bv32) {
    && flags & CLONE_VM == CLONE_VM
    && flags & CLONE_SYSVSEM == CLONE_SYSVSEM
    && flags & CLONE_FILES == CLONE_FILES
    && flags & CLONE_FS == CLONE_FS
    && flags & CLONE_IO == CLONE_IO
    && flags & CLONE_PARENT_SETTID == CLONE_PARENT_SETTID
    && flags & CSIGNAL == SIGCHLD as bv32
    && flags & (CLONE_THREAD | CLONE_SIGHAND) == 0
    && flags & !(CLONE_VM | CLONE_SYSVSEM | CLONE_FILES | CLONE_FS | CLONE_IO | CLONE_PARENT_SETTID | CSIGNAL) == 0
  }

  /** The result of `RunWithClone` and the calls it issued. */
  datatype CloneRun = CloneRun(result: Expected<Int32>, calls: seq<Call>)

  /** Start the wrapper in a new context on the stack top of `ts`.  Fails
      exactly when `clone` returns -1; otherwise yields the child id that
      `clone` stored through the parent-tid pointer. */
  function RunWithClone(clone: CloneAnswer, ts: ThreadStack): (r: CloneRun)
    ensures |r.calls| == 1 && r.calls[0].Clone?
    ensures r.calls[0].stack == ts.start
    ensures SharesEverythingButThreadGroup(r.calls[0].flags)
    ensures r.result.Err? <==> clone.ret == -1
    ensures r.result.Err? ==> r.result.error == CloneFailed(CloneFlags, clone.errno)
    ensures r.result.Ok? ==> r.result.value == clone.parentTid
  {
    var calls := [Clone(ts.start, CloneFlagBits)];
    if clone.ret == -1 then CloneRun(Err(CloneFailed(CloneFlags, clone.errno)), calls)
    else CloneRun(Ok(clone.parentTid), calls)
  }

  /** The flags value a failure message reports is negative, because CLONE_IO
      occupies the sign bit of `int`. */
  lemma CloneFlagsValue()
    ensures CloneFlagBits as int == 0x8014_0711
    ensures CloneFlags == -2146171119
    ensures SharesEverythingButThreadGroup(CloneFlagBits)
  {
  }
}

=== FILE: expected.dfy ===
/** The result type of every fallible operation of the tracer: a value, or a
    gtest assertion failure.  The failure keeps the operands its message
    reports (sizes, addresses, process ids, flags, signal numbers and `errno`);
    the message text is not modelled. */
module ExpectedAssertion {
  import opened Linux

  /** The failures the tracer reports, one per failure message it builds. */
  datatype AssertionFailure =
    | MmapFailed(size: ULong, errno: int)
    | MprotectFailed(addr: nat, size: ULong, errno: int)
    | CloneFailed(flags: Int32, errno: int)
    | WaitpidFailed(pid: Int32, errno: int)
    | NotStoppedBySignal(pid: Int32)
    | NotStoppedBySigstop(pid: Int32, signal: int)
    | SeizeFailed(pid: Int32, errno: int)
    | SetOptionsFailed(pid: Int32, errno: int)
    | ResumeFailed(pid: Int32, errno: int)

  /** `Expected<T>`: either a value or an `AssertionFailure`. */
  datatype Expected<+T> = Ok(value: T) | Err(error: AssertionFailure)
}

=== FILE: linux.dfy ===
/** The Linux facilities the tracer calls: C integer widths on a 64-bit target,
    the kernel constants the code passes, the system calls it issues and the
    answers they give.

    No system call is executed by the model.  Each operation records the calls
    it issues, in order, as a sequence of `Call` values, and takes the kernel's
    answer to each call as an input (an oracle). */
module Linux {

  const TwoTo32: int := 0x1_0000_0000
  const TwoTo64: int := 0x1_0000_0000_0000_0000

  /** C `unsigned long` and `size_t`. */
  type ULong = x: int | 0 <= x < 0x1_0000_0000_0000_0000

  /** C `long`, the result type of `sysconf`. */
  type Long = x: int | -0x8000_0000_0000_0000 <= x < 0x8000_0000_0000_0000

  /** C `int` and `pid_t`. */
  type Int32 = x: int | -0x8000_0000 <= x < 0x8000_0000

  /** Conversion to `unsigned long`: reduction modulo 2^64, the rule for
      unsigned arithmetic and for signed-to-unsigned conversion. */
  function ToULong(x: int): (u: ULong)
    ensures 0 <= x < TwoTo64 ==> u == x
    ensures -TwoTo64 <= x < 0 ==> u == x + TwoTo64
  {
    x % TwoTo64
  }

  /** Conversion of an unsigned 32-bit value to `int`: two's complement, as
      GCC defines the out-of-range conversion. */
  function ToInt32(u: int): (i: Int32)
    requires 0 <= u < TwoTo32
    ensures (i - u) % TwoTo32 == 0
  {
    if u < 0x8000_0000 then u else u - TwoTo32
  }

  // Memory protection and mapping flags (sys/mman.h).
  const PROT_NONE: bv32 := 0x0
  const PROT_READ: bv32 := 0x1
  const PROT_WRITE: bv32 := 0x2
  const MAP_PRIVATE: bv32 := 0x02
  const MAP_ANONYMOUS: bv32 := 0x20
  const MAP_STACK: bv32 := 0x20000

  // Signals (signal.h).
  const SIGCHLD: int := 17
  const SIGCONT: int := 18
  const SIGSTOP: int := 19

  // clone(2) flags (sched.h); the low byte of the flags is the exit signal.
  const CSIGNAL: bv32 := 0x0000_00ff
  const CLONE_VM: bv32 := 0x0000_0100
  const CLONE_FS: bv32 := 0x0000_0200
  const CLONE_FILES: bv32 := 0x0000_0400
  const CLONE_SIGHAND: bv32 := 0x0000_0800
  const CLONE_THREAD: bv32 := 0x0001_0000
  const CLONE_SYSVSEM: bv32 := 0x0004_0000
  const CLONE_PARENT_SETTID: bv32 := 0x0010_0000
  const CLONE_IO: bv32 := 0x8000_0000

  // waitpid(2) options (sys/wait.h); WSTOPPED is an alias of WUNTRACED.
  const WUNTRACED: bv32 := 2
  const WSTOPPED: bv32 := 2

  // ptrace(2) requests and options (sys/ptrace.h).
  const PTRACE_CONT: int := 7
  const PTRACE_SYSCALL: int := 24
  const PTRACE_SETOPTIONS: int := 0x4200
  const PTRACE_SEIZE: int := 0x4206
  const PTRACE_O_TRACESYSGOOD: bv32 := 0x01
  const PTRACE_O_TRACEEXIT: bv32 := 0x40

  /** A system call issued by the tracer, with the arguments that vary or that
      the code chooses.  Addresses are unbounded: pointer overflow is not
      modelled. */
  datatype Call =
    | Mmap(length: ULong, prot: bv32, flags: bv32)
    | Mprotect(addr: nat, length: ULong, prot: bv32)
    | Munmap(addr: nat, length: ULong)
    | Clone(stack: nat, flags: bv32)
    | Waitpid(pid: Int32, options: bv32)
    | Ptrace(request: int, pid: Int32, data: bv32)
    | Kill(pid: Int32, signal: int)

  /** The kernel's answer to `mmap`: the returned pointer value and `errno`. */
  datatype MmapAnswer = MmapAnswer(addr: ULong, errno: int)

  /** The answer to a call that returns a status (`mprotect`, `ptrace`, `kill`). */
  datatype SysAnswer = SysAnswer(ret: int, errno: int)

  /** The answer to `clone`: its return value, the thread id it stores through
      the parent-tid pointer, and `errno`. */
  datatype CloneAnswer = CloneAnswer(ret: int, parentTid: Int32, errno: int)

  /** The answer to `waitpid`: its return value, the status word it stores,
      and `errno`. */
  datatype WaitAnswer = WaitAnswer(ret: int, status: Int32, errno: int)

  /** Number of `munmap` calls in a call sequence. */
  function Munmaps(calls: seq<Call>): (n: nat)
    ensures n <= |calls|
    ensures n == 0 <==> forall i :: 0 <= i < |calls| ==> !calls[i].Munmap?
  {
    if |calls| == 0 then 0
    else (if calls[0].Munmap? then 1 else 0) + Munmaps(calls[1..])
  }

  lemma {:induction false} MunmapsAppend(a: seq<Call>, b: seq<Call>)
    ensures Munmaps(a + b) == Munmaps(a) + Munmaps(b)
  {
    if |a| == 0 {
      assert a + b == b;
    } else {
      assert (a + b)[1..] == a[1..] + b;
      MunmapsAppend(a[1..], b);
    }
  }
}

=== FILE: ptrace.dfy ===
/** Attaching the tracer: the SIGSTOP handshake with the new context, then
    seizing it, setting the trace options and resuming it up to its next
    system call; and the single tracing step that follows. */
module Ptrace {
  import opened Linux
  import opened ExpectedAssertion

  /** `WIFSTOPPED(status)`: the low byte of the status is 0x7f. */
  predicate WIfStopped(status: Int32) {
    status % 256 == 0x7f
  }

  /** `WSTOPSIG(status)`: bits 8 to 15 of the status. */
  function WStopSig(status: Int32): (signal: int) {
    (status / 256) % 256
  }

  /** The handshake wait succeeded and reports a stop by SIGSTOP. */
  predicate StoppedBySigstop(wait: WaitAnswer) {
    wait.ret != -1 && WIfStopped(wait.status) && WStopSig(wait.status) == SIGSTOP
  }

  /** A status word reports a stop by SIGSTOP exactly when its low 16 bits are
      0x137f: SIGSTOP in the high byte, the stop marker 0x7f in the low one. */
  lemma SigstopStatus(status: Int32)
    ensures WIfStopped(status) && WStopSig(status) == SIGSTOP <==> status % 0x1_0000 == 0x137f
  {
    var q := status / 0x1_0000;
    var m := status % 0x1_0000;
    assert status == (q * 256 + m / 256) * 256 + m % 256;
    assert status / 256 == q * 256 + m / 256;
  }

  /** The options set on the tracee: report its exit, and mark system-call stops. */
  const TraceOptions: bv32 := PTRACE_O_TRACEEXIT | PTRACE_O_TRACESYSGOOD

  /** Every call of a handshake that succeeds, in order. */
  function HandshakeCalls(pid: Int32): (calls: seq<Call>) {
    [ Waitpid(pid, WSTOPPED | WUNTRACED),
      Ptrace(PTRACE_SEIZE, pid, 0),
      Ptrace(PTRACE_SETOPTIONS, pid, TraceOptions),
      Ptrace(PTRACE_SYSCALL, pid, 0) ]
  }

  /** The result of `SetupPtraceSyscall` and the calls it issued. */
  datatype SetupRun = SetupRun(result: Expected<()>, calls: seq<Call>)

  /** Wait for the child to stop, check that it stopped on SIGSTOP, then
      PTRACE_SEIZE, PTRACE_SETOPTIONS and PTRACE_SYSCALL, returning the first
      failure. */
  function SetupPtraceSyscall(pid: Int32, wait: WaitAnswer, seize: SysAnswer, setOptions: SysAnswer,
                              resume: SysAnswer): (r: SetupRun)
    ensures 1 <= |r.calls| && r.calls <= HandshakeCalls(pid)
    ensures r.result.Ok? <==>
              StoppedBySigstop(wait) && seize.ret != -1 && setOptions.ret != -1 && resume.ret != -1
    ensures r.result.Ok? ==> r.calls == HandshakeCalls(pid)
    ensures !StoppedBySigstop(wait) ==> |r.calls| == 1
    ensures wait.ret == -1 ==> r.result == Err(WaitpidFailed(pid, wait.errno))
    ensures wait.ret != -1 && !WIfStopped(wait.status) ==> r.result == Err(NotStoppedBySignal(pid))
    ensures wait.ret != -1 && WIfStopped(wait.status) && WStopSig(wait.status) != SIGSTOP ==>
              r.result == Err(NotStoppedBySigstop(pid, WStopSig(wait.status)))
    ensures StoppedBySigstop(wait) && seize.ret == -1 ==>
              r.result == Err(SeizeFailed(pid, seize.errno)) && |r.calls| == 2
    ensures StoppedBySigstop(wait) && seize.ret != -1 && setOptions.ret == -1 ==>
              r.result == Err(SetOptionsFailed(pid, setOptions.errno)) && |r.calls| == 3
    ensures StoppedBySigstop(wait) && seize.ret != -1 && setOptions.ret != -1 && resume.ret == -1 ==>
              r.result == Err(ResumeFailed(pid, resume.errno)) && |r.calls| == 4
  {
    var waited := [Waitpid(pid, WSTOPPED | WUNTRACED)];
    if wait.ret == -1 then
      SetupRun(Err(WaitpidFailed(pid, wait.errno)), waited)
    else if !WIfStopped(wait.status) then
      SetupRun(Err(NotStoppedBySignal(pid)), waited)
    else if WStopSig(wait.status) != SIGSTOP then
      SetupRun(Err(NotStoppedBySigstop(pid, WStopSig(wait.status))), waited)
    else
      var seized := waited + [Ptrace(PTRACE_SEIZE, pid, 0)];
      if seize.ret == -1 then
        SetupRun(Err(SeizeFailed(pid, seize.errno)), seized)
      else
        var configured := seized + [Ptrace(PTRACE_SETOPTIONS, pid, TraceOptions)];
        if setOptions.ret == -1 then
          SetupRun(Err(SetOptionsFailed(pid, setOptions.errno)), configured)
        else
          var resumed := configured + [Ptrace(PTRACE_SYSCALL, pid, 0)];
          if resume.ret == -1 then
            SetupRun(Err(ResumeFailed(pid, resume.errno)), resumed)
          else
            SetupRun(Ok(()), resumed)
  }

  /** The result of one tracing step and the calls it issued. */
  datatype StepRun = StepRun(esys: Expected<int>, calls: seq<Call>)

  /** One tracing step: continue the tracee, wait for it, send it SIGCONT.
      Every answer is ignored and the step always reports -1, the value that
      stands for "terminated", never a system-call number or an error. */
  function SinglePtrace(pid: Int32, cont: SysAnswer, wait: WaitAnswer, kill: SysAnswer): (r: StepRun)
    ensures r.esys == Ok(-1)
    ensures |r.calls| == 3 && r.calls[0] == Ptrace(PTRACE_CONT, pid, 0) && r.calls[1] == Waitpid(pid, 0)
            && r.calls[2] == Kill(pid, SIGCONT)
    ensures Munmaps(r.calls) == 0
  {
    StepRun(Ok(-1), [Ptrace(PTRACE_CONT, pid, 0), Waitpid(pid, 0), Kill(pid, SIGCONT)])
  }
}

=== FILE: stack.dfy ===
/** The thread stack the traced work runs on: its size, taken from the stack
    resource limit, and its layout, one inaccessible guard page at each end of
    a single anonymous mapping. */
module Stack {
  import opened Linux
  import opened ExpectedAssertion

  /** Page size used when `sysconf(_SC_PAGESIZE)` fails: 4 KiB. */
  const DefaultPageSize: int := 4 * 1024

  /** Usable stack size when the stack limit is unreadable or unlimited: 2 MiB. */
  const DefaultStackSize: ULong := 2 * 1024 * 1024

  /** Smallest usable stack size taken from the stack limit: 16 KiB. */
  const MinStackSize: ULong := 16 * 1024

  /** `RLIM_INFINITY` on Linux: all bits of `rlim_t` set. */
  const RlimInfinity: ULong := TwoTo64 - 1

  /** `MAP_FAILED`, the pointer value `(void *) -1` by which `mmap` reports failure. */
  const MapFailed: ULong := TwoTo64 - 1

  /** The flags of the stack mapping: private, anonymous, usable as a stack. */
  const StackMapFlags: bv32 := MAP_PRIVATE | MAP_ANONYMOUS | MAP_STACK

  /** The answer of `getrlimit(RLIMIT_STACK, …)`: failure, or the soft limit. */
  datatype RlimitQuery = GetrlimitFailed | GetrlimitOk(rlimCur: ULong)

  /** The target architecture, as far as the stack growth direction depends on it. */
  datatype Arch = Hppa | OtherArch

  /** The platform facts the stack depends on: the architecture, the answer of
      `sysconf(_SC_PAGESIZE)` and the answer of `getrlimit(RLIMIT_STACK, …)`.
      Both queries are assumed to answer the same on every call. */
  datatype Platform = Platform(arch: Arch, sysconfPageSize: Long, rlimit: RlimitQuery)

  /** The page size: the `sysconf` answer converted to `unsigned long`, or the
      default when `sysconf` reports -1. */
  function GetPageSize(sysconfPageSize: Long): (page: ULong)
    ensures sysconfPageSize == -1 ==> page == DefaultPageSize
    ensures 0 <= sysconfPageSize ==> page == sysconfPageSize
    ensures sysconfPageSize < -1 ==> page == sysconfPageSize + TwoTo64
  {
    ToULong(if sysconfPageSize == -1 then DefaultPageSize else sysconfPageSize)
  }

  /** True when the stack size is not taken from the limit. */
  predicate UsesDefaultStackSize(rlimit: RlimitQuery) {
    rlimit.GetrlimitFailed? || rlimit.rlimCur == RlimInfinity
  }

  /** The usable stack size chosen from the stack limit: the default when the
      limit is unreadable or unlimited, otherwise the larger of the limit and
      the minimum. */
  function UsableStackSize(rlimit: RlimitQuery): (usable: ULong)
    ensures MinStackSize <= usable
    ensures UsesDefaultStackSize(rlimit) ==> usable == DefaultStackSize
    ensures !UsesDefaultStackSize(rlimit) ==>
              rlimit.rlimCur <= usable && (usable == rlimit.rlimCur || usable == MinStackSize)
  {
    if UsesDefaultStackSize(rlimit) then DefaultStackSize
    else if rlimit.rlimCur < MinStackSize then MinStackSize
    else rlimit.rlimCur
  }

  /** The 64-bit additions of the allocation size do not wrap around. */
  predicate NoWrap(p: Platform) {
    UsableStackSize(p.rlimit) + 2 * GetPageSize(p.sysconfPageSize) < TwoTo64
  }

  /** Size of the whole allocation, the usable size plus two guard pages, in
      `unsigned long` arithmetic. */
  function GetInitialStackSize(p: Platform): (total: ULong)
    ensures NoWrap(p) ==> total == UsableStackSize(p.rlimit) + 2 * GetPageSize(p.sysconfPageSize)
    ensures NoWrap(p) ==> total >= MinStackSize + 2 * GetPageSize(p.sysconfPageSize)
    ensures total == ToULong(UsableStackSize(p.rlimit) + 2 * GetPageSize(p.sysconfPageSize))
  {
    var page := GetPageSize(p.sysconfPageSize);
    var guardPages := ToULong(2 * page);
    AddGuardPages(UsableStackSize(p.rlimit), page);
    if UsesDefaultStackSize(p.rlimit) then ToULong(DefaultStackSize + guardPages)
    else ToULong(Max(p.rlimit.rlimCur, MinStackSize) + guardPages)
  }

  /** Adding the wrapped guard-page size wraps like adding the exact one. */
  lemma AddGuardPages(usable: ULong, page: ULong)
    ensures ToULong(usable + ToULong(2 * page)) == ToULong(usable + 2 * page)
  {
    if 2 * page >= TwoTo64 {
      assert ToULong(2 * page) == 2 * page - TwoTo64;
    }
  }

  function Max(a: int, b: int): (m: int) {
    if a < b then b else a
  }

  /** True when the stack grows from high addresses to low ones: everywhere on
      Linux except on HP PA-RISC. */
  function CheckStackGrowsDownwards(arch: Arch): (down: bool)
    ensures down <==> arch != Hppa
  {
    match arch
    case Hppa => false
    case OtherArch => true
  }

  /** The deleter of the stack allocation: it unmaps the size it was created with. */
  datatype MUnmapDeleter = MUnmapDeleter(size: ULong)

  /** The `munmap` call the deleter issues for `ptr`. */
  function Unmap(d: MUnmapDeleter, ptr: nat): (call: Call) {
    Munmap(ptr, d.size)
  }

  /** An owning handle (`std::unique_ptr`) to the allocation; pointer 0 is null. */
  datatype UniquePtr = UniquePtr(ptr: nat, deleter: MUnmapDeleter)

  /** The handle left behind after ownership was moved out of `p`. */
  function MovedFrom(p: UniquePtr): (q: UniquePtr)
    ensures q.ptr == 0
  {
    UniquePtr(0, p.deleter)
  }

  /** The calls issued when the handle is destroyed: the deleter runs on a
      non-null pointer and nothing happens on a null one. */
  function Destroy(p: UniquePtr): (calls: seq<Call>)
    ensures |calls| <= 1
    ensures calls == [] <==> p.ptr == 0
    ensures calls != [] ==> calls[0] == Munmap(p.ptr, p.deleter.size)
  {
    if p.ptr == 0 then [] else [Unmap(p.deleter, p.ptr)]
  }

  /** A thread stack: the owning handle to the whole allocation, the logical
      stack top and the usable size (guard pages excluded). */
  datatype ThreadStack = ThreadStack(memory: UniquePtr, start: nat, size: ULong)

  /** The result of `CreateStack` and the calls it issued. */
  datatype StackRun = StackRun(result: Expected<ThreadStack>, calls: seq<Call>)

  /** Allocate the stack: map the whole allocation inaccessible, make all but
      the first and the last page readable and writable, and compute the
      stack top from the growth direction.  `mmap` failure is recognised by a
      null pointer; on `mprotect` failure the allocation is released. */
  function CreateStack(p: Platform, mmap: MmapAnswer, mprotect: SysAnswer): (r: StackRun)
    ensures |r.calls| >= 1
    ensures r.calls[0] == Mmap(GetInitialStackSize(p), PROT_NONE, StackMapFlags)
    ensures mmap.addr == 0 ==>
              r.result == Err(MmapFailed(GetInitialStackSize(p), mmap.errno)) && |r.calls| == 1
    ensures mmap.addr != 0 ==>
              |r.calls| >= 2 &&
              r.calls[1] == Mprotect(mmap.addr + GetPageSize(p.sysconfPageSize),
                                     ToULong(GetInitialStackSize(p) - 2 * GetPageSize(p.sysconfPageSize)),
                                     PROT_READ | PROT_WRITE)
    ensures r.result.Ok? <==> mmap.addr != 0 && mprotect.ret != -1
    ensures r.result.Ok? ==>
              r.result.value.memory == UniquePtr(mmap.addr, MUnmapDeleter(GetInitialStackSize(p))) &&
              |r.calls| == 2
    ensures mmap.addr != 0 && mprotect.ret == -1 ==>
              r.result == Err(MprotectFailed(mmap.addr + GetPageSize(p.sysconfPageSize),
                                             ToULong(GetInitialStackSize(p) - 2 * GetPageSize(p.sysconfPageSize)),
                                             mprotect.errno)) &&
              |r.calls| == 3 && r.calls[2] == Munmap(mmap.addr, GetInitialStackSize(p))
    ensures r.result.Ok? ==>
              r.result.value.size == r.calls[1].length &&
              r.result.value.start == r.calls[1].addr + (if p.arch != Hppa then r.calls[1].length else 0)
    ensures Munmaps(r.calls) <= 1
  {
    var stackSize := GetInitialStackSize(p);
    var mapped := [Mmap(stackSize, PROT_NONE, StackMapFlags)];
    if mmap.addr == 0 then
      StackRun(Err(MmapFailed(stackSize, mmap.errno)), mapped)
    else
      var uptr := UniquePtr(mmap.addr, MUnmapDeleter(stackSize));
      var page := GetPageSize(p.sysconfPageSize);
      var low := mmap.addr + page;
      var size := ToULong(ToULong(stackSize - page) - page);
      SubtractTwice(stackSize, page);
      var calls := mapped + [Mprotect(low, size, PROT_READ | PROT_WRITE)];
      if mprotect.ret == -1 then
        StackRun(Err(MprotectFailed(low, size, mprotect.errno)), calls + Destroy(uptr))
      else
        var start := low + (if CheckStackGrowsDownwards(p.arch) then size else 0);
        StackRun(Ok(ThreadStack(uptr, start, size)), calls + Destroy(MovedFrom(uptr)))
  }

  /** Two wrapping subtractions of `page` equal one wrapping subtraction of twice `page`. */
  lemma SubtractTwice(total: ULong, page: ULong)
    ensures ToULong(ToULong(total - page) - page) == ToULong(total - 2 * page)
  {
  }

  /** The layout of a stack: exactly one page below the usable region and one
      above it inside the allocation, and the stack top at one end of the
      usable region. */
  predicate GuardedLayout(ts: ThreadStack, page: nat, down: bool) {
    var low := ts.memory.ptr + page;
    var high := low + ts.size;
    && high + page == ts.memory.ptr + ts.memory.deleter.size
    && ts.start == (if down then high else low)
  }

  /** Without wrap-around, a created stack has the usable size chosen from the
      limit (so at least 16 KiB), is bounded by one guard page at each end, and
      its top is the high end of the usable region exactly when the stack grows
      downwards, which is everywhere but on HP PA-RISC. */
  lemma CreatedStackLayout(p: Platform, mmap: MmapAnswer, mprotect: SysAnswer)
    requires NoWrap(p)
    ensures var r := CreateStack(p, mmap, mprotect);
            r.result.Ok? ==>
              && r.result.value.size == UsableStackSize(p.rlimit)
              && r.result.value.size >= MinStackSize
              && r.result.value.memory.deleter.size == r.result.value.size + 2 * GetPageSize(p.sysconfPageSize)
              && GuardedLayout(r.result.value, GetPageSize(p.sysconfPageSize), p.arch != Hppa)
  {
  }

  /** `mmap` reports failure with `MAP_FAILED`, which is not null, so the
      failure test lets it through: the code never reports an `mmap` failure
      for it, goes on to `mprotect` at the address one page past `MAP_FAILED`
      (it wraps in C, and pointer overflow is not modelled), and if that
      fails unmaps `MAP_FAILED` with the full size. */
  lemma MapFailedPassesNullTest(p: Platform, errno: int, mprotect: SysAnswer)
    ensures var r := CreateStack(p, MmapAnswer(MapFailed, errno), mprotect);
            && !(r.result.Err? && r.result.error.MmapFailed?)
            && r.calls[1].Mprotect? && r.calls[1].addr == MapFailed + GetPageSize(p.sysconfPageSize)
            && (mprotect.ret == -1 ==> r.calls[2] == Munmap(MapFailed, GetInitialStackSize(p)))
            && (mprotect.ret != -1 ==> r.result.Ok?)
  {
  }

  /** A soft stack limit just below `RLIM_INFINITY` makes the 64-bit total
      wrap around: with 4 KiB pages and a limit of 2^64 - 2 bytes the
      allocation is 8190 bytes, less than the two guard pages, and the usable
      size computed from it wraps to 2^64 - 2. */
  lemma StackSizeWrapsBelowInfinity()
    ensures var p := Platform(OtherArch, 4096, GetrlimitOk(TwoTo64 - 2));
            && !NoWrap(p)
            && GetInitialStackSize(p) == 8190
            && GetInitialStackSize(p) < MinStackSize + 2 * GetPageSize(p.sysconfPageSize)
            && ToULong(GetInitialStackSize(p) - 2 * GetPageSize(p.sysconfPageSize)) == TwoTo64 - 2
  {
  }
}

=== FILE: strace.dfy ===
/** The traced run of a work function: create the stack, start the work in a
    new context, attach the tracer, run the step loop, then re-throw an
    exception the work left in the shared slot.  The thread stack is released
    when the run returns, on every path after it was allocated. */
module Strace {
  import opened Linux
  import opened ExpectedAssertion
  import opened Stack
  import opened Clone
  import opened Ptrace

  /** The kernel's answer to every system call of one run, in call order. */
  datatype OsAnswers = OsAnswers(
    mmap: MmapAnswer, mprotect: SysAnswer, clone: CloneAnswer,
    handshake: WaitAnswer, seize: SysAnswer, setOptions: SysAnswer, resume: SysAnswer,
    cont: SysAnswer, stepWait: WaitAnswer, kill: SysAnswer)

  /** The traced work: how it ends, and whether the new context had finished
      it when the tracer reads the exception slot.  The tracer reads the slot
      after one step, which does not wait for the context to terminate. */
  datatype Tracee = Tracee(work: WorkOutcome, doneBeforeRead: bool)

  /** How `Strace` ends: it returns an `Expected<void>`, or it re-throws the
      exception captured in the new context. */
  datatype StraceOutcome = Returned(result: Expected<()>) | Rethrown(exception: Exception)

  /** The outcome of `Strace` and the calls the tracer issued. */
  datatype StraceRun = StraceRun(outcome: StraceOutcome, calls: seq<Call>)

  /** The loop condition: the step produced a value other than -1. */
  predicate KeepsStepping(esys: Expected<int>) {
    esys.Ok? && esys.value != -1
  }

  /** The step loop: run `SinglePtrace` while it yields a value other than -1.
      The first step already meets the exit condition, so the body runs once,
      and the loop never ends in an error. */
  function SyscallLoop(pid: Int32, os: OsAnswers): (r: StepRun)
    ensures !KeepsStepping(r.esys)
    ensures r.esys.Ok?
    ensures Munmaps(r.calls) == 0
  {
    var step := SinglePtrace(pid, os.cont, os.stepWait, os.kill);
    step
  }

  /** The exception slot as the tracer reads it: what the wrapper stored, if
      the new context had finished the work, otherwise still null. */
  function SlotAtRead(tracee: Tracee): (slot: ExceptionPtr) {
    if tracee.doneBeforeRead then WrapperFunctionForClone(WrappedArgs(tracee.work, NullExceptionPtr)).excp
    else NullExceptionPtr
  }

  /** The calls issued when the run returns with the stack `ts` alive: the
      stack itself is destroyed, then the moved-from `Expected` that held it. */
  function ReleaseStack(ts: ThreadStack): (calls: seq<Call>) {
    Destroy(ts.memory) + Destroy(MovedFrom(ts.memory))
  }

  /** The part of the run that uses the stack `ts`: start the new context,
      attach, run the step loop and read the exception slot, returning at the
      first failure.  It unmaps nothing: the stack belongs to the caller. */
  function RunOnStack(ts: ThreadStack, os: OsAnswers, tracee: Tracee): (r: StraceRun)
    ensures forall c :: c in r.calls ==> !c.Munmap?
  {
    var launch := RunWithClone(os.clone, ts);
    match launch.result
    case Err(e) => StraceRun(Returned(Err(e)), launch.calls)
    case Ok(pid) =>
      var setup := SetupPtraceSyscall(pid, os.handshake, os.seize, os.setOptions, os.resume);
      var attached := launch.calls + setup.calls;
      match setup.result
      case Err(e) => StraceRun(Returned(Err(e)), attached)
      case Ok(_) =>
        var loop := SyscallLoop(pid, os);
        var traced := attached + loop.calls;
        match loop.esys
        case Err(e) => StraceRun(Returned(Err(e)), traced)
        case Ok(_) =>
          match SlotAtRead(tracee)
          case ExceptionPtrTo(x) => StraceRun(Rethrown(x), traced)
          case NullExceptionPtr => StraceRun(Returned(Ok(())), traced)
  }

  /** The traced run: create the stack, run on it, and release it when the
      run returns, whichever way it returns.  It reports a failure exactly
      when some step before the step loop fails; once attached it either
      succeeds or re-throws. */
  function Strace(p: Platform, os: OsAnswers, tracee: Tracee): (r: StraceRun)
    ensures !Attached(os) ==> r.outcome.Returned? && r.outcome.result.Err?
    ensures Attached(os) ==> r.outcome.Rethrown? || r.outcome == Returned(Ok(()))
  {
    var stack := CreateStack(p, os.mmap, os.mprotect);
    match stack.result
    case Err(e) => StraceRun(Returned(Err(e)), stack.calls)
    case Ok(ts) =>
      var run := RunOnStack(ts, os, tracee);
      StraceRun(run.outcome, stack.calls + run.calls + ReleaseStack(ts))
  }

  /** The stack was created, the new context started and the tracer attached. */
  predicate Attached(os: OsAnswers) {
    && os.mmap.addr != 0
    && os.mprotect.ret != -1
    && os.clone.ret != -1
    && StoppedBySigstop(os.handshake)
    && os.seize.ret != -1
    && os.setOptions.ret != -1
    && os.resume.ret != -1
  }

  /** No `clone`, `waitpid` or `ptrace` call happens when the stack cannot be
      created, and the run returns the stack failure. */
  lemma StackFailureStopsRun(p: Platform, os: OsAnswers, tracee: Tracee)
    requires CreateStack(p, os.mmap, os.mprotect).result.Err?
    ensures var r := Strace(p, os, tracee);
            && r.outcome == Returned(Err(CreateStack(p, os.mmap, os.mprotect).result.error))
            && forall i :: 0 <= i < |r.calls| ==> !r.calls[i].Clone? && !r.calls[i].Waitpid? && !r.calls[i].Ptrace?
  {
  }

  /** No `waitpid` or `ptrace` call happens when `clone` fails, and the run
      returns the clone failure. */
  lemma CloneFailureStopsRun(p: Platform, os: OsAnswers, tracee: Tracee)
    requires os.mmap.addr != 0 && os.mprotect.ret != -1 && os.clone.ret == -1
    ensures var r := Strace(p, os, tracee);
            && r.outcome == Returned(Err(CloneFailed(CloneFlags, os.clone.errno)))
            && forall i :: 0 <= i < |r.calls| ==> !r.calls[i].Waitpid? && !r.calls[i].Ptrace?
  {
  }

  /** When the handshake fails the run returns the handshake's own failure,
      issues no tracing step, and ends by releasing the stack. */
  lemma HandshakeFailureStopsRun(p: Platform, os: OsAnswers, tracee: Tracee)
    requires os.mmap.addr != 0 && os.mprotect.ret != -1 && os.clone.ret != -1
    requires SetupPtraceSyscall(os.clone.parentTid, os.handshake, os.seize, os.setOptions, os.resume).result.Err?
    ensures var r := Strace(p, os, tracee);
            var stack := CreateStack(p, os.mmap, os.mprotect);
            var setup := SetupPtraceSyscall(os.clone.parentTid, os.handshake, os.seize, os.setOptions, os.resume);
            && r.outcome == Returned(Err(setup.result.error))
            && r.calls == stack.calls + RunWithClone(os.clone, stack.result.value).calls + setup.calls
                          + [Munmap(os.mmap.addr, GetInitialStackSize(p))]
  {
  }

  /** A ptrace request is issued only after `clone` succeeded and the
      handshake wait saw the new context stopped by SIGSTOP. */
  lemma PtraceOnlyAfterHandshake(p: Platform, os: OsAnswers, tracee: Tracee)
    ensures var r := Strace(p, os, tracee);
            (exists c :: c in r.calls && c.Ptrace?) ==>
              os.mmap.addr != 0 && os.mprotect.ret != -1 && os.clone.ret != -1 && StoppedBySigstop(os.handshake)
  {
    var stack := CreateStack(p, os.mmap, os.mprotect);
    assert forall c :: c in stack.calls ==> !c.Ptrace?;
    if stack.result.Ok? && os.clone.ret != -1 && !StoppedBySigstop(os.handshake) {
      var ts := stack.result.value;
      var setup := SetupPtraceSyscall(os.clone.parentTid, os.handshake, os.seize, os.setOptions, os.resume);
      assert Strace(p, os, tracee).calls == stack.calls + RunWithClone(os.clone, ts).calls + setup.calls + ReleaseStack(ts);
    }
  }

  /** Once attached, the run never reports an error: the step loop cannot
      fail, so the run either returns success or re-throws. */
  lemma AttachedRunNeverFails(p: Platform, os: OsAnswers, tracee: Tracee)
    requires Attached(os)
    ensures Strace(p, os, tracee).outcome.Rethrown? || Strace(p, os, tracee).outcome == Returned(Ok(()))
  {
  }

  /** The run succeeds exactly when every step succeeds and the slot is empty
      when read. */
  lemma StraceSucceedsIff(p: Platform, os: OsAnswers, tracee: Tracee)
    ensures Strace(p, os, tracee).outcome == Returned(Ok(())) <==>
              Attached(os) && SlotAtRead(tracee) == NullExceptionPtr
  {
  }

  /** The exception round trip: the run re-throws exactly the exception the
      work threw, when it is attached and the work had finished before the
      slot was read, and re-throws nothing otherwise. */
  lemma StraceRethrowsWorkException(p: Platform, os: OsAnswers, tracee: Tracee, e: Exception)
    ensures Strace(p, os, tracee).outcome == Rethrown(e) <==>
              Attached(os) && tracee.doneBeforeRead && tracee.work == Throws(e)
  {
  }

  /** Work that returns normally makes an attached run succeed. */
  lemma NormalWorkSucceeds(p: Platform, os: OsAnswers, tracee: Tracee)
    requires Attached(os) && tracee.work == Returns
    ensures Strace(p, os, tracee).outcome == Returned(Ok(()))
  {
  }

  /** The slot is read after a single step, not after the new context
      terminated: an exception the work throws after that read is lost and
      the run reports success. */
  lemma UnfinishedWorkExceptionLost(p: Platform, os: OsAnswers, e: Exception)
    requires Attached(os)
    ensures Strace(p, os, Tracee(Throws(e), false)).outcome == Returned(Ok(()))
  {
  }

  /** The stack is released exactly once, as the last call, with the address
      and the full size that were mapped, on every path after `mmap` returned
      a non-null pointer; a null `mmap` result leaves nothing to release. */
  lemma {:induction false} StackReleasedOnce(p: Platform, os: OsAnswers, tracee: Tracee)
    ensures var r := Strace(p, os, tracee);
            && (os.mmap.addr == 0 ==> Munmaps(r.calls) == 0)
            && (os.mmap.addr != 0 ==>
                  && Munmaps(r.calls) == 1
                  && r.calls[|r.calls| - 1] == Munmap(os.mmap.addr, GetInitialStackSize(p)))
  {
    var stack := CreateStack(p, os.mmap, os.mprotect);
    if stack.result.Err? {
      assert Strace(p, os, tracee).calls == stack.calls;
      if os.mmap.addr != 0 {
        assert stack.calls == stack.calls[..2] + [stack.calls[2]];
        MunmapsAppend(stack.calls[..2], [stack.calls[2]]);
      }
    } else {
      var ts := stack.result.value;
      var run := RunOnStack(ts, os, tracee);
      MunmapsAppend(stack.calls, run.calls);
      ReleasedLast(stack.calls + run.calls, ts);
    }
  }

  /** Releasing the stack after calls that unmap nothing leaves exactly one
      `munmap`, of the whole allocation, as the last call. */
  lemma ReleasedLast(calls: seq<Call>, ts: ThreadStack)
    requires Munmaps(calls) == 0 && ts.memory.ptr != 0
    ensures Munmaps(calls + ReleaseStack(ts)) == 1
    ensures (calls + ReleaseStack(ts))[|calls|] == Munmap(ts.memory.ptr, ts.memory.deleter.size)
    ensures |calls + ReleaseStack(ts)| == |calls| + 1
  {
    assert ReleaseStack(ts) == [Munmap(ts.memory.ptr, ts.memory.deleter.size)];
    MunmapsAppend(calls, ReleaseStack(ts));
  }

  /** The system calls of a run in which every step succeeds, in order. */
  lemma AttachedRunCalls(p: Platform, os: OsAnswers, tracee: Tracee)
    requires Attached(os)
    ensures var total := GetInitialStackSize(p);
            var page := GetPageSize(p.sysconfPageSize);
            var ts := CreateStack(p, os.mmap, os.mprotect).result.value;
            var pid := os.clone.parentTid;
            Strace(p, os, tracee).calls ==
              [ Mmap(total, PROT_NONE, StackMapFlags),
                Mprotect(os.mmap.addr + page, ToULong(total - 2 * page), PROT_READ | PROT_WRITE),
                Clone(ts.start, CloneFlagBits),
                Waitpid(pid, WSTOPPED | WUNTRACED),
                Ptrace(PTRACE_SEIZE, pid, 0),
                Ptrace(PTRACE_SETOPTIONS, pid, TraceOptions),
                Ptrace(PTRACE_SYSCALL, pid, 0),
                Ptrace(PTRACE_CONT, pid, 0),
                Waitpid(pid, 0),
                Kill(pid, SIGCONT),
                Munmap(os.mmap.addr, total) ]
  {
  }
}
